=== FILE: README.md ===
# Game loop and input tracking of a minimal JBox2D/LWJGL framework, in Dafny

This project models the core of `Game.java`: the single-threaded loop that
drives a physics world and an immediate-mode renderer. The model has four
parts.

- **Input tracking** (module `Input`). Before the loop starts, `run` snapshots
  two boolean tables once: one for the keys and one for the mouse buttons.
  Each frame, `handleInput` goes through the keyboard events and then the
  mouse events. An event changes a table entry and fires `onKeyDown` /
  `onKeyUp` (or `onMouseClick` / `onMouseRelease`) only when its state differs
  from the stored one. The rule is written once as `Reconcile`, and keys and
  buttons both use it.
  Mouse events keep the source's quirks:
  - button `-1` skips the diff;
  - the move callback fires only when `dx > 0 || dy > 0`;
  - the scroll callback fires only on a wheel device and when the wheel delta
    is `> 0`.

  Callbacks come out as a trace of `KeyDown`, `KeyUp`, `Click`, `Release`,
  `Move` and `Scroll` entries, in the order the source fires them.
- **Simulation-rate control** (module `Game`). `update` requests a world
  step only when the speed factor is `> 0` under float comparison, so NaN
  never steps. `setGameSpeed` and `pausePhysics` are the only operations that
  change the speed.
- **Key hooks** (module `Game`). The base game's `onKeyDown` ends the game on
  ESC (LWJGL key index 1). All other hooks are empty. The model runs the hooks
  over the callback trace after the whole input pass. The source calls each
  hook as its event is diffed. The result is the same, because the base hooks
  neither read nor write the tables.
- **Frame pacing and the loop** (modules `GameLoop`, `Settings`). Each pass
  runs input, update and draw in that order. It then sleeps for
  `drawDuration - frameDuration` milliseconds if the frame finished under
  budget, and warns otherwise. `drawDuration` is `1000 / 60 = 16`. The loop
  stops once a close is requested or the quit flag is set.

The reference definitions the contracts are stated against:
- `LastState`: the state of the last event that names an entry, or the
  entry's prior value if no event names it.
- `ReportOrder` and `MouseReportOrder`: the callbacks of a batch written out
  event by event, in the order reported. Each event is judged against the
  state the earlier events left.
- `Edges` and `Alternates`: the press/release callbacks for one control, and
  the rule that they strictly alternate.
- `MovesOf` and `ScrollsOf`: the mouse events that pass the move test and the
  scroll test.
- `KeyHistory` and `ButtonHistory`: every event of every frame the loop ran,
  in order.

Inputs stand in for everything the platform does:
- The device snapshot is a pair of functions from index to "is down".
- Each frame is a `Frame` value holding the close request seen at the loop
  test, the queued events, and the measured frame duration.
- A model run is driven by a finite sequence of frames.

Two behaviours of the code are easy to misread, and the model keeps both:
- `setGameSpeed` accepts any factor, including negative ones. `update` skips
  the step for every factor that is not `> 0`.
- `handleInput` does not compare two polled snapshots. It diffs each queued
  event against the stored table, one event at a time.

## Model

| member | source | states |
|---|---|---|
| Input.Snapshot | src/box2drenderer/Game.java:78-93 | the initial tables have exactly the device's control count, and each entry is the state the device reports for that index (not assumed all-up) |
| Input.ReconcileOne | src/box2drenderer/Game.java:150-161 | one event writes its entry and fires a callback iff its state differs from the stored one; that callback is the press callback iff the new state is down; every other entry is unchanged |
| Input.Reconcile | src/box2drenderer/Game.java:149-162 | after a batch of key events, each entry holds the state of the last event naming it (or its prior value); length is kept; only this device's press/release callbacks fire, each naming an entry of the table, and no more callbacks than events |
| Input.ReconcileEdges | src/box2drenderer/Game.java:149-162 | for any one key, a batch fires exactly one callback per event that changes the key's running state, carrying the new state, and none for an event that agrees with it, so two agreeing events fire nothing |
| Input.ReconcileReportOrder | src/box2drenderer/Game.java:149-162 | a batch fires its callbacks in the order the events were reported, not in table-index order: exactly one per event whose state differs from the one the earlier events left its entry in, and none for the others |
| Input.ReconcileAlternates | src/box2drenderer/Game.java:149-162 | for any one key, the callbacks of a batch strictly alternate down/up, starting opposite to the stored state, and the stored state ends as the last callback left it |
| Input.MouseStep | src/box2drenderer/Game.java:165-200 | one mouse event keeps the button table's length and fires no keyboard callback |
| Input.MouseButtonDiff | src/box2drenderer/Game.java:166-181 | a button of -1 leaves the button table alone and fires no click or release; any other button follows the key diff rule: its entry is written, a click or release fires iff its state changes, and no other button gets a callback |
| Input.MouseStepOrder | src/box2drenderer/Game.java:165-200 | one mouse event fires its click or release first, then its move, then its scroll, and nothing else |
| Input.MouseStepMoves | src/box2drenderer/Game.java:183-191 | one mouse event fires a move callback iff dx > 0 or dy > 0, so an event with neither delta positive (left, down, or both) fires none |
| Input.MouseStepScrolls | src/box2drenderer/Game.java:193-199 | one mouse event fires a scroll callback iff the mouse has a wheel and the wheel delta is > 0, so scrolling down fires none |
| Input.HandleMouse | src/box2drenderer/Game.java:165-200 | the mouse pass keeps the button table's length and fires only mouse callbacks |
| Input.HandleMouseReportOrder | src/box2drenderer/Game.java:165-200 | a mouse batch fires, event by event in the order reported, the event's click or release (only when it carries a button whose state differs from the one the earlier events left), then its move, then its scroll; nothing else and in no other order |
| Input.HandleMouseStates | src/box2drenderer/Game.java:165-181 | the mouse pass leaves the button table exactly as the key diff rule does on the switches of the events that carry a button |
| Input.HandleMouseEdges | src/box2drenderer/Game.java:165-181 | for each button, the mouse pass fires the same clicks and releases as the key diff rule on those switches |
| Input.HandleMouseMoves | src/box2drenderer/Game.java:183-191 | the move callbacks of a mouse batch are exactly one per event with a positive delta, in event order |
| Input.HandleMouseScrolls | src/box2drenderer/Game.java:193-199 | the scroll callbacks of a mouse batch are exactly one per event with a positive wheel delta on a wheel device, in event order |
| Input.HandleInput | src/box2drenderer/Game.java:147-201 | the input phase keeps both table lengths; each key and button ends in the state of the last event naming it, or keeps its stored state |
| Input.InputCallbackOrder | src/box2drenderer/Game.java:147-201 | the input phase fires every key callback, exactly those of the key diff, before any mouse callback, exactly those of the mouse pass |
| Input.InputEdgesWithinTables | src/box2drenderer/Game.java:147-181 | no press or release of the input phase names a key or button outside its table |
| Input.InputWritesOnlyNamed | src/box2drenderer/Game.java:147-201 | the input phase writes only the entries some event names; every other key and button keeps its state |
| Input.InputCallbacksAlternate | src/box2drenderer/Game.java:147-201 | over a whole input phase, the callbacks for any one key or button alternate starting from its stored state, and the table ends as the last callback left it |
| Input.InputCallbacksOnChange | src/box2drenderer/Game.java:147-181 | over a whole input phase, each key and button fires exactly one callback per reported state that changes it, and none for a state that agrees with it |
| Input.InputMotionCallbacks | src/box2drenderer/Game.java:164-200 | over a whole input phase, the move and scroll callbacks are exactly those of the mouse events that pass the two tests |
| Input.StateQueriesAfterInput | src/box2drenderer/Game.java:260-266 | after an input phase, getKeyState and getMouseButtonState answer with the last reported state, or with the stored state when no event named the control |
| Input.LastStateAppend | src/box2drenderer/Game.java:149-162 | two batches processed one after the other leave each entry as their concatenation does |
| Game.Start | src/box2drenderer/Game.java:39-40 | a fresh game holds its snapshot, has speed 1.0 and has its quit flag down |
| Game.FreshGameSteps | src/box2drenderer/Game.java:131-135 | a fresh game requests a world step, and stops requesting one once paused |
| Game.Update | src/box2drenderer/Game.java:131-135 | a world step is requested iff the speed is a number > 0 |
| Game.SetGameSpeed | src/box2drenderer/Game.java:268-270 | the speed becomes the factor; the input tables and quit flag are untouched |
| Game.PausePhysics | src/box2drenderer/Game.java:272-274 | the speed becomes 0; nothing else changes |
| Game.PauseStopsStepping | src/box2drenderer/Game.java:272-274 | after pausing, update requests no world step |
| Game.SpeedDecidesStepping | src/box2drenderer/Game.java:131-135 | after setting the speed, update steps iff the factor is > 0; zero, negative and NaN factors never step |
| Game.EndGame | src/box2drenderer/Game.java:280-282 | the quit flag is raised; nothing else changes |
| Game.OnKeyDown | src/box2drenderer/Game.java:222-230 | a key press raises the quit flag iff the key is ESC; nothing else changes |
| Game.Dispatch | src/box2drenderer/Game.java:155-160 | running the hooks for a callback trace raises quit iff the trace holds a press of ESC; tables and speed are untouched |
| GameLoop.Pace | src/box2drenderer/Game.java:106-119 | the loop sleeps iff frameDuration < drawDuration; a sleep lasts exactly the remaining budget, and 0 < sleep <= drawDuration for a non-negative frame duration; otherwise it warns |
| GameLoop.Iterate | src/box2drenderer/Game.java:97-119 | one pass runs input, update, draw and pacing in that order; an ESC press raises quit; the speed is unchanged; every key and button ends in the state of its last event |
| GameLoop.ProgressStep | src/box2drenderer/Game.java:97-103 | one more pass, taken while no close is requested and quit is down, keeps the loop invariant |
| GameLoop.Run | src/box2drenderer/Game.java:65-120 | every pass runs input, update, draw, pacing in order; the input phase of pass j records exactly the callbacks frame j's events fire against the tables that pass began with; no pass starts after a close request or after a pass whose events pressed ESC; without either, every frame runs; the tables keep the snapshot's lengths and end in each control's last reported state |

## Left out

- Display creation, the projection setup, cursor grabbing and placement, `Display.update` and `Display.destroy`. These are platform calls. A failed display creation only prints its message, and the model starts at the snapshot.
- `Keyboard.enableRepeatEvents(false)`: the model takes the queued events as given, so repeat suppression is the device's business.
- `getTime` and `getGameTime`: clock reads. Each frame's measured duration is an input. The Java `long` subtraction is modelled on unbounded integers, which a real clock never overflows.
- `Thread.sleep` and its interruption: the model records the sleep decision, not the sleep. An interrupted sleep only prints a message.
- `draw`, `drawPhysicsWorld` and the drawing module: OpenGL calls and float tessellation. The draw phase is a trace entry.
- `World.step` and the float product `timeStep * speed`: the physics engine is external, so only the step/no-step decision is modelled.
- `screenCoordsToProjectionCoords` and `projectionCoordsToScreenCoords`: float ratio conversions. The move callback records the raw event position instead of the converted one.
- `getGameSpeed`: a plain read of the speed field.
- Game.Update: the float speed is a real number or NaN. Infinities and negative zero are not told apart from large or zero reals, and they give the same answer to `> 0`.
- Input.MouseStep: `dx` and `dy` are inputs, namely whatever the device delta reads return while the event is current. The model does not say how LWJGL accumulates them between polls.
- Subclass overrides of the input hooks, and of `update` or `draw`: the model covers the base class. Hooks that change the tables or the speed are out of scope.
- GameLoop.Run: takes the speed in force when the loop starts as a parameter. A plain game starts at 1.0 (`Game.Start`), but a subclass may call `setGameSpeed` before `run`, so the model does not fix it.
- GameLoop.Run: the source loops until a close or quit. The model runs over a finite sequence of frames, and running out of frames also ends the run.
- `Settings`: only `drawDuration` is used. The other settings are floats or only configure external libraries.

=== FILE: Game.dfy ===
/** The state of a running game and the operations on it that the loop calls:
    the simulation-rate control (update, set the speed, pause) and the input
    hooks of the base game, of which only a key press of ESC does anything. */
module Game {
  import opened Input

  /** The keyboard index of the escape key. */
  const KeyEscape: nat := 1

  /** The game speed, a float: a number or NaN (every comparison with NaN is false). */
  datatype Speed = Num(value: real) | NaN

  /** The speed a new game starts with. */
  const InitialSpeed: Speed := Num(1.0)

  /** The mutable state of a running game: the input tables, the speed factor and the quit flag. */
  datatype GameState = GameState(input: InputState, speed: Speed, quit: bool)

  /** A game that has just taken its input snapshot: the field initialisers
      give it normal speed and a lowered quit flag. */
  function Start(input: InputState): (g: GameState)
    ensures g.input == input && g.speed == Num(1.0) && !g.quit
  {
    GameState(input, InitialSpeed, false)
  }

  /** The float test `speed > 0`; false for NaN. */
  predicate Positive(speed: Speed) {
    speed.Num? && speed.value > 0.0
  }

  /** The update phase asks the physics world for a step exactly when the speed
      is positive; the step itself belongs to the physics engine. */
  function Update(g: GameState): (stepped: bool)
    ensures stepped ==> g.speed.Num? && g.speed.value > 0.0
    ensures g.speed.Num? && g.speed.value > 0.0 ==> stepped
  {
    Positive(g.speed)
  }

  /** Changes the speed factor and nothing else. */
  function SetGameSpeed(g: GameState, factor: Speed): (r: GameState)
    ensures r.speed == factor
    ensures r.input == g.input && r.quit == g.quit
  {
    g.(speed := factor)
  }

  /** Sets the speed to zero and changes nothing else. */
  function PausePhysics(g: GameState): (r: GameState)
    ensures r.speed == Num(0.0)
    ensures r.input == g.input && r.quit == g.quit
  {
    SetGameSpeed(g, Num(0.0))
  }

  /** Raises the quit flag and changes nothing else. */
  function EndGame(g: GameState): (r: GameState)
    ensures r.quit
    ensures r.input == g.input && r.speed == g.speed
  {
    g.(quit := true)
  }

  /** The base game's key-press hook: ESC ends the game, any other key does nothing. */
  function OnKeyDown(g: GameState, key: nat): (r: GameState)
    ensures r.quit <==> g.quit || key == KeyEscape
    ensures r.input == g.input && r.speed == g.speed
  {
    if key == KeyEscape then EndGame(g) else g
  }

  /** Runs the base game's hooks for a trace of callbacks, in order. Only key
      presses reach a hook that does anything; the release, click, move and
      scroll hooks are empty. */
  function Dispatch(g: GameState, fired: seq<Callback>): (r: GameState)
    ensures r.quit <==> g.quit || KeyDown(KeyEscape) in fired
    ensures r.input == g.input && r.speed == g.speed
    decreases |fired|
  {
    if fired == [] then g
    else
      var next := match fired[0] case KeyDown(k) => OnKeyDown(g, k) case _ => g;
      assert fired == [fired[0]] + fired[1..];
      Dispatch(next, fired[1..])
  }

  /** A fresh game steps its world every frame until the speed is changed. */
  lemma FreshGameSteps(input: InputState)
    ensures Update(Start(input))
    ensures !Update(PausePhysics(Start(input)))
  {
  }

  /** Once paused, the game requests no world step, whatever else it holds. */
  lemma PauseStopsStepping(g: GameState)
    ensures !Update(PausePhysics(g))
  {
  }

  /** After a speed change the world is stepped exactly when the new factor is
      positive: never for zero, a negative factor or NaN. */
  lemma SpeedDecidesStepping(g: GameState, factor: Speed)
    ensures Update(SetGameSpeed(g, factor)) <==> factor.Num? && factor.value > 0.0
  {
  }
}

=== FILE: GameLoop.dfy ===
/** The main loop: the input snapshot taken once, then frames of input,
    update and draw, each followed by the sleep-or-warn pacing decision, until
    the window asks to close or the game has been told to quit.

    The model is driven by a finite sequence of frames: each holds what the
    platform reports for one pass of the loop (the close request seen at the
    loop test, the queued keyboard and mouse events, and the frame's measured
    duration). Running out of frames ends a model run. */
module GameLoop {
  import opened Input
  import opened Game
  import Settings

  /** What the end of a frame does about the frame budget. */
  datatype Pacing = Sleep(ms: int) | Warn

  /** The end-of-frame decision, in whole milliseconds: a frame under budget
      sleeps for exactly the rest of the budget, any other frame warns. */
  function Pace(frameDuration: int): (r: Pacing)
    ensures r.Sleep? <==> frameDuration < Settings.DrawDuration
    ensures r.Sleep? ==> frameDuration + r.ms == Settings.DrawDuration
    ensures r.Sleep? ==> 0 < r.ms
    ensures r.Sleep? && frameDuration >= 0 ==> r.ms <= Settings.DrawDuration
  {
    if frameDuration < Settings.DrawDuration then Sleep(Settings.DrawDuration - frameDuration) else Warn
  }

  /** What the platform reports for one pass of the loop. */
  datatype Frame = Frame(closeRequested: bool, keyEvents: seq<Switch>, mouseEvents: seq<MouseEvent>, frameDuration: int)

  /** One entry of the loop's phase trace. */
  datatype Phase =
    | HandledInput(fired: seq<Callback>)
    | Updated(stepped: bool)
    | Drew
    | Paced(pacing: Pacing)

  /** The game after one pass of the loop, with the phases that pass ran. */
  datatype Iteration = Iteration(game: GameState, phases: seq<Phase>)

  /** The frame's events name only keys and buttons the tables hold. */
  predicate Fits(f: Frame, keyCount: nat, buttonCount: nat) {
    InRange(f.keyEvents, keyCount) && AllAddressable(f.mouseEvents, buttonCount)
  }

  /** One pass of the loop body: input (whose callbacks may end the game),
      then update, then draw, then pacing. */
  function Iterate(g: GameState, f: Frame, hasWheel: bool): (r: Iteration)
    requires Fits(f, |g.input.keys|, |g.input.buttons|)
    ensures |r.phases| == 4
    ensures r.phases[0] == HandledInput(HandleInput(g.input, f.keyEvents, f.mouseEvents, hasWheel).fired)
    ensures r.phases[1] == Updated(Positive(g.speed))
    ensures r.phases[2] == Drew
    ensures r.phases[3] == Paced(Pace(f.frameDuration))
    ensures r.game.speed == g.speed
    ensures r.game.quit <==> g.quit || KeyDown(KeyEscape) in r.phases[0].fired
    ensures |r.game.input.keys| == |g.input.keys| && |r.game.input.buttons| == |g.input.buttons|
    ensures forall k :: 0 <= k < |g.input.keys| ==>
      r.game.input.keys[k] == LastState(f.keyEvents, k, g.input.keys[k])
    ensures forall b :: 0 <= b < |g.input.buttons| ==>
      r.game.input.buttons[b] == LastState(ButtonSwitches(f.mouseEvents), b, g.input.buttons[b])
  {
    var handled := HandleInput(g.input, f.keyEvents, f.mouseEvents, hasWheel);
    var afterInput := Dispatch(g.(input := handled.state), handled.fired);
    var stepped := Update(afterInput);
    Iteration(afterInput, [HandledInput(handled.fired), Updated(stepped), Drew, Paced(Pace(f.frameDuration))])
  }

  /** All key events of the given frames, in the order they were reported. */
  ghost function KeyHistory(frames: seq<Frame>): seq<Switch>
    decreases |frames|
  {
    if frames == [] then [] else KeyHistory(frames[..|frames| - 1]) + frames[|frames| - 1].keyEvents
  }

  /** All button switches of the given frames, in the order they were reported. */
  ghost function ButtonHistory(frames: seq<Frame>): seq<Switch>
    decreases |frames|
  {
    if frames == [] then [] else ButtonHistory(frames[..|frames| - 1]) + ButtonSwitches(frames[|frames| - 1].mouseEvents)
  }

  /** Pass `j` of the loop sits at entries 4j..4j+3 of the trace, in the order
      input, update, draw, pacing. */
  ghost predicate IterationAt(trace: seq<Phase>, j: int, stepped: bool, pacing: Pacing) {
    && 0 <= j && 4 * j + 4 <= |trace|
    && trace[4 * j].HandledInput?
    && trace[4 * j + 1] == Updated(stepped)
    && trace[4 * j + 2] == Drew
    && trace[4 * j + 3] == Paced(pacing)
  }

  /** The tables the loop holds when pass `j` begins: every key and button in
      the state of its last event over the earlier passes, or as the snapshot
      reported it. */
  ghost function Entering(frames: seq<Frame>, j: nat, keyCount: nat, keyDown: int -> bool,
                    buttonCount: nat, buttonDown: int -> bool): (s: InputState)
    requires j <= |frames|
    ensures |s.keys| == keyCount && |s.buttons| == buttonCount
    ensures forall k :: 0 <= k < keyCount ==> s.keys[k] == LastState(KeyHistory(frames[..j]), k, keyDown(k))
    ensures forall b :: 0 <= b < buttonCount ==> s.buttons[b] == LastState(ButtonHistory(frames[..j]), b, buttonDown(b))
  {
    InputState(seq(keyCount, k => LastState(KeyHistory(frames[..j]), k, keyDown(k))),
               seq(buttonCount, b => LastState(ButtonHistory(frames[..j]), b, buttonDown(b))))
  }

  /** The input phase of pass `j` recorded exactly the callbacks that frame
      `j`'s events fire against the tables the pass began with. */
  ghost predicate InputAt(trace: seq<Phase>, j: int, frames: seq<Frame>, keyCount: nat, keyDown: int -> bool,
                    buttonCount: nat, buttonDown: int -> bool, hasWheel: bool)
  {
    && 0 <= j < |frames| && 4 * j < |trace|
    && Fits(frames[j], keyCount, buttonCount)
    && trace[4 * j] == HandledInput(HandleInput(Entering(frames, j, keyCount, keyDown, buttonCount, buttonDown),
                                                frames[j].keyEvents, frames[j].mouseEvents, hasWheel).fired)
  }

  /** The input phase of pass `j` fired a key press of ESC. */
  ghost predicate EscapeAt(trace: seq<Phase>, j: int) {
    && 0 <= j && 4 * j < |trace|
    && trace[4 * j].HandledInput?
    && KeyDown(KeyEscape) in trace[4 * j].fired
  }

  lemma HistoryStep(frames: seq<Frame>, i: nat)
    requires i < |frames|
    ensures KeyHistory(frames[..i + 1]) == KeyHistory(frames[..i]) + frames[i].keyEvents
    ensures ButtonHistory(frames[..i + 1]) == ButtonHistory(frames[..i]) + ButtonSwitches(frames[i].mouseEvents)
  {
    assert frames[..i + 1][..i] == frames[..i];
  }

  /** Stored states that follow one history, updated by a further batch, follow the longer history. */
  lemma HistoryExtends(history: seq<Switch>, events: seq<Switch>, before: seq<bool>, after: seq<bool>, isDown: int -> bool)
    requires |after| == |before|
    requires forall k :: 0 <= k < |before| ==> before[k] == LastState(history, k, isDown(k))
    requires forall k :: 0 <= k < |before| ==> after[k] == LastState(events, k, before[k])
    ensures forall k :: 0 <= k < |after| ==> after[k] == LastState(history + events, k, isDown(k))
  {
    forall k | 0 <= k < |after|
      ensures after[k] == LastState(history + events, k, isDown(k))
    {
      LastStateAppend(history, events, k, isDown(k));
    }
  }

  /** Appending the phases of pass `n` keeps the earlier passes where they were. */
  lemma TraceExtends(trace: seq<Phase>, phases: seq<Phase>, n: nat, frames: seq<Frame>, stepped: bool)
    requires n < |frames| && |trace| == 4 * n
    requires forall j :: 0 <= j < n ==> IterationAt(trace, j, stepped, Pace(frames[j].frameDuration))
    requires |phases| == 4 && phases[0].HandledInput? && phases[1] == Updated(stepped)
    requires phases[2] == Drew && phases[3] == Paced(Pace(frames[n].frameDuration))
    ensures forall j :: 0 <= j < n + 1 ==> IterationAt(trace + phases, j, stepped, Pace(frames[j].frameDuration))
    ensures forall j :: 0 <= j < n ==> EscapeAt(trace + phases, j) == EscapeAt(trace, j)
    ensures EscapeAt(trace + phases, n) <==> KeyDown(KeyEscape) in phases[0].fired
  {
  }

  /** Appending a pass keeps the recorded input phases of the earlier passes. */
  lemma InputsExtend(trace: seq<Phase>, phases: seq<Phase>, n: nat, frames: seq<Frame>, keyCount: nat,
                     keyDown: int -> bool, buttonCount: nat, buttonDown: int -> bool, hasWheel: bool)
    requires |trace| == 4 * n
    requires forall j :: 0 <= j < n ==> InputAt(trace, j, frames, keyCount, keyDown, buttonCount, buttonDown, hasWheel)
    ensures forall j :: 0 <= j < n ==> InputAt(trace + phases, j, frames, keyCount, keyDown, buttonCount, buttonDown, hasWheel)
  {
    forall j | 0 <= j < n
      ensures InputAt(trace + phases, j, frames, keyCount, keyDown, buttonCount, buttonDown, hasWheel)
    {
      assert InputAt(trace, j, frames, keyCount, keyDown, buttonCount, buttonDown, hasWheel);
      assert (trace + phases)[4 * j] == trace[4 * j];
    }
  }

  /** What holds of a run after `n` passes of the loop. */
  ghost predicate Progress(g: GameState, trace: seq<Phase>, n: nat, frames: seq<Frame>, speed: Speed,
                     keyCount: nat, keyDown: int -> bool, buttonCount: nat, buttonDown: int -> bool, hasWheel: bool)
  {
    && n <= |frames|
    && |trace| == 4 * n
    && (forall j :: 0 <= j < n ==> IterationAt(trace, j, Positive(speed), Pace(frames[j].frameDuration)))
    && (forall j :: 0 <= j < n ==> InputAt(trace, j, frames, keyCount, keyDown, buttonCount, buttonDown, hasWheel))
    && (forall j :: 0 <= j < n ==> !frames[j].closeRequested)
    && (g.quit <==> n > 0 && EscapeAt(trace, n - 1))
    && (forall j :: 0 <= j < n - 1 ==> !EscapeAt(trace, j))
    && g.speed == speed
    && g.input == Entering(frames, n, keyCount, keyDown, buttonCount, buttonDown)
  }

  /** One more pass of the loop, taken while no close is requested and the quit flag is down, keeps `Progress`. */
  lemma ProgressStep(g: GameState, trace: seq<Phase>, n: nat, frames: seq<Frame>, speed: Speed,
                     keyCount: nat, keyDown: int -> bool, buttonCount: nat, buttonDown: int -> bool, hasWheel: bool)
    requires Progress(g, trace, n, frames, speed, keyCount, keyDown, buttonCount, buttonDown, hasWheel)
    requires n < |frames| && !frames[n].closeRequested && !g.quit
    requires Fits(frames[n], keyCount, buttonCount)
    ensures var it := Iterate(g, frames[n], hasWheel);
      Progress(it.game, trace + it.phases, n + 1, frames, speed, keyCount, keyDown, buttonCount, buttonDown, hasWheel)
  {
    var it := Iterate(g, frames[n], hasWheel);
    EnteringStep(g, n, frames, keyCount, keyDown, buttonCount, buttonDown, hasWheel);
    TraceExtends(trace, it.phases, n, frames, Positive(speed));
    InputsExtend(trace, it.phases, n, frames, keyCount, keyDown, buttonCount, buttonDown, hasWheel);
    assert (trace + it.phases)[4 * n] == it.phases[0];
  }

  /** A pass that begins with the tables `Entering` describes leaves the tables
      it describes for the next pass. */
  lemma EnteringStep(g: GameState, n: nat, frames: seq<Frame>, keyCount: nat, keyDown: int -> bool,
                     buttonCount: nat, buttonDown: int -> bool, hasWheel: bool)
    requires n < |frames|
    requires g.input == Entering(frames, n, keyCount, keyDown, buttonCount, buttonDown)
    requires Fits(frames[n], keyCount, buttonCount)
    ensures Iterate(g, frames[n], hasWheel).game.input == Entering(frames, n + 1, keyCount, keyDown, buttonCount, buttonDown)
  {
    var f := frames[n];
    var it := Iterate(g, f, hasWheel);
    var next := Entering(frames, n + 1, keyCount, keyDown, buttonCount, buttonDown);
    HistoryStep(frames, n);
    HistoryExtends(KeyHistory(frames[..n]), f.keyEvents, g.input.keys, it.game.input.keys, keyDown);
    HistoryExtends(ButtonHistory(frames[..n]), ButtonSwitches(f.mouseEvents), g.input.buttons, it.game.input.buttons, buttonDown);
    assert it.game.input.keys == next.keys;
    assert it.game.input.buttons == next.buttons;
  }

  /** One pass of the loop body, taken while no close is requested and the
      quit flag is down: the game after it, and the trace with its phases. */
  method Pass(g: GameState, trace: seq<Phase>, n: nat, frames: seq<Frame>, speed: Speed, keyCount: nat,
              keyDown: int -> bool, buttonCount: nat, buttonDown: int -> bool, hasWheel: bool)
    returns (g': GameState, trace': seq<Phase>)
    requires Progress(g, trace, n, frames, speed, keyCount, keyDown, buttonCount, buttonDown, hasWheel)
    requires n < |frames| && !frames[n].closeRequested && !g.quit
    requires Fits(frames[n], keyCount, buttonCount)
    ensures Progress(g', trace', n + 1, frames, speed, keyCount, keyDown, buttonCount, buttonDown, hasWheel)
  {
    var it := Iterate(g, frames[n], hasWheel);
    ProgressStep(g, trace, n, frames, speed, keyCount, keyDown, buttonCount, buttonDown, hasWheel);
    g', trace' := it.game, trace + it.phases;
  }

  /** What `Progress` says about the stored tables, entry by entry. */
  lemma ProgressTables(g: GameState, trace: seq<Phase>, n: nat, frames: seq<Frame>, speed: Speed, keyCount: nat,
                       keyDown: int -> bool, buttonCount: nat, buttonDown: int -> bool, hasWheel: bool)
    requires Progress(g, trace, n, frames, speed, keyCount, keyDown, buttonCount, buttonDown, hasWheel)
    ensures |g.input.keys| == keyCount && |g.input.buttons| == buttonCount
    ensures forall k :: 0 <= k < keyCount ==> g.input.keys[k] == LastState(KeyHistory(frames[..n]), k, keyDown(k))
    ensures forall b :: 0 <= b < buttonCount ==> g.input.buttons[b] == LastState(ButtonHistory(frames[..n]), b, buttonDown(b))
  {
  }

  /** Before the first pass, tables the snapshot filled in satisfy `Progress`. */
  lemma ProgressStart(g: GameState, frames: seq<Frame>, speed: Speed, keyCount: nat, keyDown: int -> bool,
                      buttonCount: nat, buttonDown: int -> bool, hasWheel: bool)
    requires |g.input.keys| == keyCount && |g.input.buttons| == buttonCount
    requires forall k :: 0 <= k < keyCount ==> g.input.keys[k] == keyDown(k)
    requires forall b :: 0 <= b < buttonCount ==> g.input.buttons[b] == buttonDown(b)
    requires g.speed == speed && !g.quit
    ensures Progress(g, [], 0, frames, speed, keyCount, keyDown, buttonCount, buttonDown, hasWheel)
  {
  }

  /** The game's run: snapshot the mouse buttons, then the keys, then loop
      while no close is requested and the quit flag is down. `speed` is the
      factor in force when the loop starts: the fresh game's 1.0, or whatever a
      subclass set before calling `run`. */
  method Run(keyCount: nat, keyDown: int -> bool, buttonCount: nat, buttonDown: int -> bool,
             hasWheel: bool, speed: Speed, frames: seq<Frame>)
    returns (g: GameState, trace: seq<Phase>, iterations: nat)
    requires forall j :: 0 <= j < |frames| ==> Fits(frames[j], keyCount, buttonCount)
    ensures iterations <= |frames|
    ensures |trace| == 4 * iterations
    ensures forall j :: 0 <= j < iterations ==> IterationAt(trace, j, Positive(speed), Pace(frames[j].frameDuration))
    ensures forall j :: 0 <= j < iterations ==>
      InputAt(trace, j, frames, keyCount, keyDown, buttonCount, buttonDown, hasWheel)
    ensures forall j :: 0 <= j < iterations ==> !frames[j].closeRequested
    ensures iterations < |frames| ==> frames[iterations].closeRequested || g.quit
    ensures g.quit <==> iterations > 0 && EscapeAt(trace, iterations - 1)
    ensures forall j :: 0 <= j < iterations - 1 ==> !EscapeAt(trace, j)
    ensures g.speed == speed
    ensures |g.input.keys| == keyCount && |g.input.buttons| == buttonCount
    ensures forall k :: 0 <= k < keyCount ==>
      g.input.keys[k] == LastState(KeyHistory(frames[..iterations]), k, keyDown(k))
    ensures forall b :: 0 <= b < buttonCount ==>
      g.input.buttons[b] == LastState(ButtonHistory(frames[..iterations]), b, buttonDown(b))
  {
    var buttons := Snapshot(buttonCount, buttonDown);
    var keys := Snapshot(keyCount, keyDown);
    g := SetGameSpeed(Start(InputState(keys, buttons)), speed);
    trace := [];
    iterations := 0;
    ProgressStart(g, frames, speed, keyCount, keyDown, buttonCount, buttonDown, hasWheel);
    while iterations < |frames| && !frames[iterations].closeRequested && !g.quit
      invariant Progress(g, trace, iterations, frames, speed, keyCount, keyDown, buttonCount, buttonDown, hasWheel)
    {
      g, trace := Pass(g, trace, iterations, frames, speed, keyCount, keyDown, buttonCount, buttonDown, hasWheel);
      iterations := iterations + 1;
    }
    ProgressTables(g, trace, iterations, frames, speed, keyCount, keyDown, buttonCount, buttonDown, hasWheel);
  }
}

=== FILE: Input.dfy ===
/** The input-state tracker of the game loop.

    Before the loop starts the game snapshots, once, whether each key and each
    mouse button is down. Every frame it folds the events the devices report
    over those two tables: an event whose state differs from the stored one
    overwrites the entry and fires a press or release callback, an event that
    agrees with the table does nothing. Mouse events additionally carry cursor
    motion and wheel motion, which fire their own callbacks under their own
    (one-sided) tests.
 */
module Input {

  /** The two devices whose controls are tracked, each in its own table. */
  datatype Device = Keyboard | Mouse

  /** A reported state of one control: its index in the table and whether it is down. */
  datatype Switch = Switch(index: int, down: bool)

  /** One polled mouse event. `button` is -1 when the event carries no button;
      `dx`, `dy` are what the device delta reads return while this event is
      current; `x`, `y` the event position; `wheel` the event's wheel delta. */
  datatype MouseEvent = MouseEvent(button: int, down: bool, dx: int, dy: int, x: int, y: int, wheel: int)

  /** The input callbacks the tracker fires, in the order it fires them. */
  datatype Callback =
    | KeyDown(key: nat)
    | KeyUp(key: nat)
    | Click(button: nat)
    | Release(button: nat)
    | Move(dx: int, dy: int, x: int, y: int)
    | Scroll(amount: int)

  /** One table after some events, with the callbacks fired on the way. */
  datatype Outcome = Outcome(states: seq<bool>, fired: seq<Callback>)

  /** The stored previous-frame state of every key and every mouse button. */
  datatype InputState = InputState(keys: seq<bool>, buttons: seq<bool>)

  /** The input state after one input phase, with every callback it fired. */
  datatype Handled = Handled(state: InputState, fired: seq<Callback>)

  // ---------------------------------------------------------------------------
  // Well-formed events
  // ---------------------------------------------------------------------------

  /** Every switch names an entry of a table with `n` entries; reading or
      writing any other index throws. */
  predicate InRange(switches: seq<Switch>, n: nat) {
    forall j :: 0 <= j < |switches| ==> 0 <= switches[j].index < n
  }

  /** A mouse event either carries no button (-1) or names an entry of a table with `n` entries. */
  predicate Addressable(e: MouseEvent, n: nat) {
    e.button == -1 || 0 <= e.button < n
  }

  predicate AllAddressable(events: seq<MouseEvent>, n: nat) {
    forall j :: 0 <= j < |events| ==> Addressable(events[j], n)
  }

  // ---------------------------------------------------------------------------
  // Reference definitions
  // ---------------------------------------------------------------------------

  /** The state entry `i` ought to hold after `switches`: that of the LAST
      switch naming `i`, or `prior` when none does. */
  ghost function LastState(switches: seq<Switch>, i: int, prior: bool): bool
    decreases |switches|
  {
    if switches == [] then prior
    else if switches[|switches| - 1].index == i then switches[|switches| - 1].down
    else LastState(switches[..|switches| - 1], i, prior)
  }

  /** No switch names entry `i`. */
  ghost predicate Unnamed(switches: seq<Switch>, i: int) {
    forall j :: 0 <= j < |switches| ==> switches[j].index != i
  }

  /** No mouse event names button `b`. */
  ghost predicate Untouched(events: seq<MouseEvent>, b: int) {
    forall j :: 0 <= j < |events| ==> events[j].button != b
  }

  /** The press and release callbacks of `dev`. */
  predicate OfDevice(c: Callback, dev: Device) {
    match dev
    case Keyboard => c.KeyDown? || c.KeyUp?
    case Mouse => c.Click? || c.Release?
  }

  /** A key press or release. */
  predicate IsKey(c: Callback) { c.KeyDown? || c.KeyUp? }

  /** A button click or release. */
  predicate IsButton(c: Callback) { c.Click? || c.Release? }

  /** Any callback of the mouse: a click, release, move or scroll. */
  predicate IsMouse(c: Callback) { !IsKey(c) }

  /** A press or release of `dev` names an entry of a table with `n` entries. */
  predicate WithinTable(c: Callback, dev: Device, n: nat) {
    match c
    case KeyDown(k) => dev == Keyboard ==> k < n
    case KeyUp(k) => dev == Keyboard ==> k < n
    case Click(b) => dev == Mouse ==> b < n
    case Release(b) => dev == Mouse ==> b < n
    case _ => true
  }

  predicate IsMove(c: Callback) { c.Move? }

  predicate IsScroll(c: Callback) { c.Scroll? }

  /** `[true]` for a press of control `i` of `dev`, `[false]` for its release, `[]` for anything else. */
  ghost function EdgeFlag(c: Callback, dev: Device, i: int): seq<bool> {
    match c
    case KeyDown(k) => if dev == Keyboard && k == i then [true] else []
    case KeyUp(k) => if dev == Keyboard && k == i then [false] else []
    case Click(b) => if dev == Mouse && b == i then [true] else []
    case Release(b) => if dev == Mouse && b == i then [false] else []
    case _ => []
  }

  /** The presses (true) and releases (false) a trace reports for control `i` of `dev`, in order. */
  ghost function Edges(trace: seq<Callback>, dev: Device, i: int): seq<bool>
    decreases |trace|
  {
    if trace == [] then [] else EdgeFlag(trace[0], dev, i) + Edges(trace[1..], dev, i)
  }

  /** Each flag flips the state before it, the first one flipping `prior`. */
  ghost predicate Alternates(flags: seq<bool>, prior: bool)
    decreases |flags|
  {
    flags == [] || (flags[0] != prior && Alternates(flags[1..], flags[0]))
  }

  /** The state a control is left in by a sequence of edges starting from `prior`. */
  ghost function Settle(flags: seq<bool>, prior: bool): bool {
    if flags == [] then prior else flags[|flags| - 1]
  }

  /** The states the switches report for entry `i`, in order. */
  ghost function StatesOf(switches: seq<Switch>, i: int): seq<bool>
    decreases |switches|
  {
    if switches == [] then []
    else (if switches[0].index == i then [switches[0].down] else []) + StatesOf(switches[1..], i)
  }

  /** The reported states that differ from the running state, which starts at
      `prior` and follows every kept state: the state changes a control goes through. */
  ghost function Changes(flags: seq<bool>, prior: bool): seq<bool>
    decreases |flags|
  {
    if flags == [] then []
    else if flags[0] != prior then [flags[0]] + Changes(flags[1..], flags[0])
    else Changes(flags[1..], prior)
  }

  /** The callback the `j`-th event of a batch fires: a press or release of its
      control when its state differs from the one the earlier events left,
      nothing otherwise. */
  ghost function FiredBy(dev: Device, states: seq<bool>, switches: seq<Switch>, j: nat): seq<Callback>
    requires InRange(switches, |states|) && j < |switches|
  {
    var s := switches[j];
    if s.down != LastState(switches[..j], s.index, states[s.index]) then [Edge(dev, s.index, s.down)] else []
  }

  /** The callbacks of the first `n` events of a batch, in the order the events were reported. */
  ghost function ReportOrder(dev: Device, states: seq<bool>, switches: seq<Switch>, n: nat): seq<Callback>
    requires InRange(switches, |states|) && n <= |switches|
  {
    if n == 0 then [] else ReportOrder(dev, states, switches, n - 1) + FiredBy(dev, states, switches, n - 1)
  }

  /** The callbacks of a trace that `keep` selects, in order. */
  ghost function Filter(trace: seq<Callback>, keep: Callback -> bool): (r: seq<Callback>)
    ensures forall c :: c in r ==> c in trace && keep(c)
    decreases |trace|
  {
    if trace == [] then []
    else (if keep(trace[0]) then [trace[0]] else []) + Filter(trace[1..], keep)
  }

  // ---------------------------------------------------------------------------
  // The diff rule shared by keys and mouse buttons
  // ---------------------------------------------------------------------------

  /** The callback for control `index` of `dev` going down (or up). */
  function Edge(dev: Device, index: nat, down: bool): (c: Callback)
    ensures OfDevice(c, dev)
    ensures forall i :: EdgeFlag(c, dev, i) == (if i == index then [down] else [])
  {
    match dev
    case Keyboard => if down then KeyDown(index) else KeyUp(index)
    case Mouse => if down then Click(index) else Release(index)
  }

  /** One event against its table: the entry is written and a callback fired
      exactly when the reported state differs from the stored one. */
  function ReconcileOne(dev: Device, states: seq<bool>, s: Switch): (r: Outcome)
    requires 0 <= s.index < |states|
    ensures |r.states| == |states|
    ensures r.states[s.index] == s.down
    ensures forall i :: 0 <= i < |states| && i != s.index ==> r.states[i] == states[i]
    ensures r.fired != [] <==> states[s.index] != s.down
    ensures r.fired != [] ==> r.fired == [Edge(dev, s.index, s.down)]
    ensures r.fired == [] ==> r.states == states
  {
    if states[s.index] != s.down then Outcome(states[s.index := s.down], [Edge(dev, s.index, s.down)])
    else Outcome(states, [])
  }

  /** A batch of events folded over a table, in the order they were reported. */
  function Reconcile(dev: Device, states: seq<bool>, switches: seq<Switch>): (r: Outcome)
    requires InRange(switches, |states|)
    ensures |r.states| == |states|
    ensures forall i :: 0 <= i < |states| ==> r.states[i] == LastState(switches, i, states[i])
    ensures forall c :: c in r.fired ==> OfDevice(c, dev)
    ensures forall c :: c in r.fired ==> WithinTable(c, dev, |states|)
    ensures |r.fired| <= |switches|
    decreases |switches|
  {
    if switches == [] then Outcome(states, [])
    else
      var first := ReconcileOne(dev, states, switches[0]);
      var rest := Reconcile(dev, first.states, switches[1..]);
      LastStateAfterFirst(switches, states, first.states);
      Outcome(rest.states, first.fired + rest.fired)
  }

  // ---------------------------------------------------------------------------
  // Mouse events
  // ---------------------------------------------------------------------------

  /** The button table one mouse event leaves: its button's entry overwritten,
      or unchanged when it carries none. */
  ghost function Pressed(buttons: seq<bool>, e: MouseEvent): (r: seq<bool>)
    ensures |r| == |buttons|
  {
    if 0 <= e.button < |buttons| then buttons[e.button := e.down] else buttons
  }

  /** The button table the first `j` events of a batch leave. */
  ghost function ButtonsBefore(buttons: seq<bool>, events: seq<MouseEvent>, j: nat): (r: seq<bool>)
    requires j <= |events|
    ensures |r| == |buttons|
  {
    if j == 0 then buttons else Pressed(ButtonsBefore(buttons, events, j - 1), events[j - 1])
  }

  /** The callbacks the `j`-th event of a mouse batch fires, in this order:
      a click or release when it carries a button whose state differs from the
      one the earlier events left, then its move, then its scroll. */
  ghost function MouseFiredBy(buttons: seq<bool>, events: seq<MouseEvent>, j: nat, hasWheel: bool): seq<Callback>
    requires j < |events|
  {
    var e := events[j];
    var before := ButtonsBefore(buttons, events, j);
    var press := if 0 <= e.button < |before| && e.down != before[e.button] then [Edge(Mouse, e.button, e.down)] else [];
    press + MoveFired(e) + ScrollFired(e, hasWheel)
  }

  /** The callbacks of the first `n` events of a mouse batch, in the order the events were reported. */
  ghost function MouseReportOrder(buttons: seq<bool>, events: seq<MouseEvent>, n: nat, hasWheel: bool): seq<Callback>
    requires n <= |events|
  {
    if n == 0 then [] else MouseReportOrder(buttons, events, n - 1, hasWheel) + MouseFiredBy(buttons, events, n - 1, hasWheel)
  }

  /** The move callback of one mouse event: fired only for a positive delta on some axis. */
  function MoveFired(e: MouseEvent): seq<Callback> {
    if e.dy > 0 || e.dx > 0 then [Move(e.dx, e.dy, e.x, e.y)] else []
  }

  /** The scroll callback of one mouse event: fired only on a wheel device and for a positive delta. */
  function ScrollFired(e: MouseEvent, hasWheel: bool): seq<Callback> {
    if hasWheel && e.wheel > 0 then [Scroll(e.wheel)] else []
  }

  /** The button switches a batch of mouse events carries; events with button -1 carry none. */
  function ButtonSwitches(events: seq<MouseEvent>): (r: seq<Switch>)
    ensures |r| <= |events|
    decreases |events|
  {
    if events == [] then []
    else
      (if events[0].button == -1 then [] else [Switch(events[0].button, events[0].down)])
      + ButtonSwitches(events[1..])
  }

  /** The reference for the move callbacks of a batch: one per event with a positive delta. */
  ghost function MovesOf(events: seq<MouseEvent>): seq<Callback>
    decreases |events|
  {
    if events == [] then [] else MoveFired(events[0]) + MovesOf(events[1..])
  }

  /** The reference for the scroll callbacks of a batch: one per event with a positive wheel delta. */
  ghost function ScrollsOf(events: seq<MouseEvent>, hasWheel: bool): seq<Callback>
    decreases |events|
  {
    if events == [] then [] else ScrollFired(events[0], hasWheel) + ScrollsOf(events[1..], hasWheel)
  }

  /** One mouse event: the button diff (skipped for button -1), then the move
      test, then the scroll test, firing their callbacks in that order. */
  function MouseStep(buttons: seq<bool>, e: MouseEvent, hasWheel: bool): (r: Outcome)
    requires Addressable(e, |buttons|)
    ensures |r.states| == |buttons|
    ensures forall c :: c in r.fired ==> !OfDevice(c, Keyboard)
    ensures forall c :: c in r.fired ==> WithinTable(c, Mouse, |buttons|)
  {
    var press := ButtonPress(buttons, e);
    Outcome(press.states, press.fired + MoveFired(e) + ScrollFired(e, hasWheel))
  }

  /** The button part of one mouse event. */
  function ButtonPress(buttons: seq<bool>, e: MouseEvent): (r: Outcome)
    requires Addressable(e, |buttons|)
    ensures |r.states| == |buttons|
    ensures forall c :: c in r.fired ==> OfDevice(c, Mouse)
    ensures forall c :: c in r.fired ==> WithinTable(c, Mouse, |buttons|)
  {
    if e.button == -1 then Outcome(buttons, []) else ReconcileOne(Mouse, buttons, Switch(e.button, e.down))
  }

  /** A batch of mouse events folded over the button table, in the order they were reported. */
  function HandleMouse(buttons: seq<bool>, events: seq<MouseEvent>, hasWheel: bool): (r: Outcome)
    requires AllAddressable(events, |buttons|)
    ensures |r.states| == |buttons|
    ensures forall c :: c in r.fired ==> !OfDevice(c, Keyboard)
    ensures forall c :: c in r.fired ==> WithinTable(c, Mouse, |buttons|)
    decreases |events|
  {
    if events == [] then Outcome(buttons, [])
    else
      var step := MouseStep(buttons, events[0], hasWheel);
      var rest := HandleMouse(step.states, events[1..], hasWheel);
      Outcome(rest.states, step.fired + rest.fired)
  }

  // ---------------------------------------------------------------------------
  // The input phase
  // ---------------------------------------------------------------------------

  /** The input phase of one frame: all keyboard events, then all mouse events. */
  function HandleInput(s: InputState, keyEvents: seq<Switch>, mouseEvents: seq<MouseEvent>, hasWheel: bool): (r: Handled)
    requires InRange(keyEvents, |s.keys|)
    requires AllAddressable(mouseEvents, |s.buttons|)
    ensures |r.state.keys| == |s.keys| && |r.state.buttons| == |s.buttons|
    ensures forall k :: 0 <= k < |s.keys| ==> r.state.keys[k] == LastState(keyEvents, k, s.keys[k])
    ensures forall b :: 0 <= b < |s.buttons| ==>
      r.state.buttons[b] == LastState(ButtonSwitches(mouseEvents), b, s.buttons[b])
  {
    var k := Reconcile(Keyboard, s.keys, keyEvents);
    var m := HandleMouse(s.buttons, mouseEvents, hasWheel);
    HandleMouseStates(s.buttons, mouseEvents, hasWheel);
    Handled(InputState(k.states, m.states), k.fired + m.fired)
  }

  /** The stored state of a key; any other index throws. */
  function KeyState(s: InputState, key: int): bool
    requires 0 <= key < |s.keys|
  {
    s.keys[key]
  }

  /** The stored state of a mouse button; any other index throws. */
  function ButtonState(s: InputState, button: int): bool
    requires 0 <= button < |s.buttons|
  {
    s.buttons[button]
  }

  /** The snapshot taken once before the loop: `count` entries, each the state the device reports. */
  method Snapshot(count: nat, isDown: int -> bool) returns (states: seq<bool>)
    ensures |states| == count
    ensures forall i :: 0 <= i < count ==> states[i] == isDown(i)
  {
    states := [];
    var i := 0;
    while i < count
      invariant 0 <= i <= count
      invariant |states| == i
      invariant forall j :: 0 <= j < i ==> states[j] == isDown(j)
    {
      states := states + [isDown(i)];
      i := i + 1;
    }
  }

  // ---------------------------------------------------------------------------
  // Lemmas: the reference definitions
  // ---------------------------------------------------------------------------

  /** Events in two batches leave an entry as the second batch leaves the first batch's result. */
  lemma {:induction false} LastStateAppend(a: seq<Switch>, b: seq<Switch>, i: int, prior: bool)
    ensures LastState(a + b, i, prior) == LastState(b, i, LastState(a, i, prior))
    decreases |b|
  {
    if b == [] {
      assert a + b == a;
    } else {
      var n := |b|;
      assert (a + b)[|a + b| - 1] == b[n - 1];
      if b[n - 1].index != i {
        assert (a + b)[..|a + b| - 1] == a + b[..n - 1];
        LastStateAppend(a, b[..n - 1], i, prior);
      }
    }
  }

  /** Folding from the front agrees with the last-event reference. */
  lemma LastStateAfterFirst(switches: seq<Switch>, states: seq<bool>, after: seq<bool>)
    requires |switches| > 0 && 0 <= switches[0].index < |states|
    requires |after| == |states| && after[switches[0].index] == switches[0].down
    requires forall i :: 0 <= i < |states| && i != switches[0].index ==> after[i] == states[i]
    ensures forall i :: 0 <= i < |states| ==> LastState(switches, i, states[i]) == LastState(switches[1..], i, after[i])
  {
    forall i | 0 <= i < |states|
      ensures LastState(switches, i, states[i]) == LastState(switches[1..], i, after[i])
    {
      assert [switches[0]] + switches[1..] == switches;
      LastStateAppend([switches[0]], switches[1..], i, states[i]);
      assert [switches[0]][..0] == [];
    }
  }

  /** An entry that no switch names keeps its prior state. */
  lemma {:induction false} UnnamedKeepsPrior(switches: seq<Switch>, i: int, prior: bool)
    requires Unnamed(switches, i)
    ensures LastState(switches, i, prior) == prior
    decreases |switches|
  {
    if switches != [] {
      var n := |switches|;
      assert Unnamed(switches[..n - 1], i);
      UnnamedKeepsPrior(switches[..n - 1], i, prior);
    }
  }

  /** A button that no mouse event names is named by none of the batch's switches. */
  lemma {:induction false} UnnamedButton(events: seq<MouseEvent>, b: int)
    requires Untouched(events, b)
    ensures Unnamed(ButtonSwitches(events), b)
    decreases |events|
  {
    if events != [] {
      assert Untouched(events[1..], b);
      UnnamedButton(events[1..], b);
    }
  }

  lemma {:induction false} EdgesAppend(a: seq<Callback>, b: seq<Callback>, dev: Device, i: int)
    ensures Edges(a + b, dev, i) == Edges(a, dev, i) + Edges(b, dev, i)
    decreases |a|
  {
    if a == [] {
      assert a + b == b;
    } else {
      assert (a + b)[1..] == a[1..] + b;
      EdgesAppend(a[1..], b, dev, i);
    }
  }

  /** A trace holding no press or release of `dev` reports no edges for it. */
  lemma {:induction false} NoEdges(trace: seq<Callback>, dev: Device, i: int)
    requires forall c :: c in trace ==> !OfDevice(c, dev)
    ensures Edges(trace, dev, i) == []
    decreases |trace|
  {
    if trace != [] {
      assert trace[0] in trace;
      NoEdges(trace[1..], dev, i);
    }
  }

  lemma {:induction false} FilterAppend(a: seq<Callback>, b: seq<Callback>, keep: Callback -> bool)
    ensures Filter(a + b, keep) == Filter(a, keep) + Filter(b, keep)
    decreases |a|
  {
    if a == [] {
      assert a + b == b;
    } else {
      assert (a + b)[1..] == a[1..] + b;
      FilterAppend(a[1..], b, keep);
    }
  }

  lemma {:induction false} FilterAll(trace: seq<Callback>, keep: Callback -> bool)
    requires forall c :: c in trace ==> keep(c)
    ensures Filter(trace, keep) == trace
    decreases |trace|
  {
    if trace != [] {
      assert trace[0] in trace;
      FilterAll(trace[1..], keep);
      assert [trace[0]] + trace[1..] == trace;
    }
  }

  lemma {:induction false} FilterNone(trace: seq<Callback>, keep: Callback -> bool)
    requires forall c :: c in trace ==> !keep(c)
    ensures Filter(trace, keep) == []
    decreases |trace|
  {
    if trace != [] {
      assert trace[0] in trace;
      FilterNone(trace[1..], keep);
    }
  }

  // ---------------------------------------------------------------------------
  // Lemmas: what the input phase guarantees
  // ---------------------------------------------------------------------------

  /** Per control, the press and release callbacks of a batch strictly
      alternate, starting with the opposite of the stored state, and the
      control ends in the state of the last callback (or keeps its state). */
  lemma {:induction false} ReconcileAlternates(dev: Device, states: seq<bool>, switches: seq<Switch>, i: int)
    requires InRange(switches, |states|)
    requires 0 <= i < |states|
    ensures Alternates(Edges(Reconcile(dev, states, switches).fired, dev, i), states[i])
    ensures Reconcile(dev, states, switches).states[i]
         == Settle(Edges(Reconcile(dev, states, switches).fired, dev, i), states[i])
    decreases |switches|
  {
    if switches != [] {
      var first := ReconcileOne(dev, states, switches[0]);
      var rest := Reconcile(dev, first.states, switches[1..]);
      assert Reconcile(dev, states, switches) == Outcome(rest.states, first.fired + rest.fired);
      ReconcileAlternates(dev, first.states, switches[1..], i);
      EdgesAppend(first.fired, rest.fired, dev, i);
      FirstEdge(dev, states, switches[0], i);
      AlternatesPrepend(Edges(first.fired, dev, i), Edges(rest.fired, dev, i), states[i], first.states[i]);
    }
  }

  /** One step reports at most the edge it makes: `[down]` when it flips entry `i`, nothing otherwise. */
  lemma FirstEdge(dev: Device, states: seq<bool>, s: Switch, i: int)
    requires 0 <= s.index < |states| && 0 <= i < |states|
    ensures var r := ReconcileOne(dev, states, s);
      Edges(r.fired, dev, i) == (if r.states[i] != states[i] then [r.states[i]] else [])
  {
  }

  /** Per control, a batch fires exactly one callback for each event that
      changes the control's running state, carrying the new state, and none
      for an event that agrees with it. */
  lemma {:induction false} ReconcileEdges(dev: Device, states: seq<bool>, switches: seq<Switch>, i: int)
    requires InRange(switches, |states|)
    requires 0 <= i < |states|
    ensures Edges(Reconcile(dev, states, switches).fired, dev, i) == Changes(StatesOf(switches, i), states[i])
    decreases |switches|
  {
    if switches != [] {
      var s0 := switches[0];
      var first := ReconcileOne(dev, states, s0);
      var rest := Reconcile(dev, first.states, switches[1..]);
      var tail := StatesOf(switches[1..], i);
      assert Reconcile(dev, states, switches) == Outcome(rest.states, first.fired + rest.fired);
      ReconcileEdges(dev, first.states, switches[1..], i);
      EdgesAppend(first.fired, rest.fired, dev, i);
      FirstEdge(dev, states, s0, i);
      if s0.index == i {
        var flags := [s0.down] + tail;
        assert StatesOf(switches, i) == flags;
        assert flags[0] == s0.down && flags[1..] == tail;
      } else {
        assert StatesOf(switches, i) == [] + tail;
        assert [] + tail == tail;
      }
    }
  }

  /** Prepending at most one flip that leads from `prior` to `mid` keeps the edges alternating. */
  lemma AlternatesPrepend(head: seq<bool>, tail: seq<bool>, prior: bool, mid: bool)
    requires head == (if mid != prior then [mid] else [])
    requires Alternates(tail, mid)
    ensures Alternates(head + tail, prior)
    ensures Settle(head + tail, prior) == Settle(tail, mid)
  {
    if head == [] {
      assert head + tail == tail;
    } else {
      assert (head + tail)[1..] == tail;
    }
  }

  /** Folding a batch that starts with `sw` is folding `sw`, then the rest. */
  lemma ReconcileCons(dev: Device, states: seq<bool>, sw: Switch, tail: seq<Switch>)
    requires InRange([sw] + tail, |states|)
    ensures 0 <= sw.index < |states|
    ensures InRange(tail, |ReconcileOne(dev, states, sw).states|)
    ensures var first := ReconcileOne(dev, states, sw);
      var rest := Reconcile(dev, first.states, tail);
      Reconcile(dev, states, [sw] + tail) == Outcome(rest.states, first.fired + rest.fired)
  {
    assert ([sw] + tail)[0] == sw;
    assert ([sw] + tail)[1..] == tail;
  }

  /** The switches of a batch of mouse events name only entries of the table. */
  lemma {:induction false} ButtonSwitchesInRange(events: seq<MouseEvent>, n: nat)
    requires AllAddressable(events, n)
    ensures InRange(ButtonSwitches(events), n)
    decreases |events|
  {
    if events != [] {
      assert AllAddressable(events[1..], n);
      ButtonSwitchesInRange(events[1..], n);
    }
  }

  /** The mouse batch leaves the button table as the key diff rule does on the
      switches of its events that carry a button. */
  lemma {:induction false} HandleMouseStates(buttons: seq<bool>, events: seq<MouseEvent>, hasWheel: bool)
    requires AllAddressable(events, |buttons|)
    ensures InRange(ButtonSwitches(events), |buttons|)
    ensures HandleMouse(buttons, events, hasWheel).states == Reconcile(Mouse, buttons, ButtonSwitches(events)).states
    decreases |events|
  {
    ButtonSwitchesInRange(events, |buttons|);
    if events != [] {
      var e := events[0];
      var step := MouseStep(buttons, e, hasWheel);
      assert AllAddressable(events[1..], |buttons|);
      HandleMouseStates(step.states, events[1..], hasWheel);
      var tail := ButtonSwitches(events[1..]);
      assert HandleMouse(buttons, events, hasWheel).states == HandleMouse(step.states, events[1..], hasWheel).states;
      if e.button != -1 {
        assert ButtonSwitches(events) == [Switch(e.button, e.down)] + tail;
        ReconcileCons(Mouse, buttons, Switch(e.button, e.down), tail);
        assert step.states == ReconcileOne(Mouse, buttons, Switch(e.button, e.down)).states;
      } else {
        assert ButtonSwitches(events) == tail;
        assert step.states == buttons;
      }
    }
  }

  /** The clicks and releases one mouse event fires are those of its button part alone. */
  lemma MouseStepEdges(buttons: seq<bool>, e: MouseEvent, hasWheel: bool, b: int)
    requires Addressable(e, |buttons|)
    ensures Edges(MouseStep(buttons, e, hasWheel).fired, Mouse, b) == Edges(ButtonPress(buttons, e).fired, Mouse, b)
  {
    var press := ButtonPress(buttons, e);
    var motion := MoveFired(e) + ScrollFired(e, hasWheel);
    assert MouseStep(buttons, e, hasWheel).fired == press.fired + motion;
    NoEdges(motion, Mouse, b);
    EdgesAppend(press.fired, motion, Mouse, b);
  }

  /** Folding the button part of a mouse event, then the rest, is folding the event's switches. */
  lemma ButtonPressCons(buttons: seq<bool>, e: MouseEvent, tail: seq<Switch>)
    requires Addressable(e, |buttons|)
    requires InRange(tail, |buttons|)
    ensures InRange((if e.button == -1 then [] else [Switch(e.button, e.down)]) + tail, |buttons|)
    ensures var press := ButtonPress(buttons, e);
      var rest := Reconcile(Mouse, press.states, tail);
      Reconcile(Mouse, buttons, (if e.button == -1 then [] else [Switch(e.button, e.down)]) + tail)
        == Outcome(rest.states, press.fired + rest.fired)
  {
    if e.button == -1 {
      assert [] + tail == tail;
    } else {
      ReconcileCons(Mouse, buttons, Switch(e.button, e.down), tail);
    }
  }

  /** The mouse batch fires, for each button, the clicks and releases the key diff
      rule fires on the switches of its events that carry a button. */
  lemma {:induction false} HandleMouseEdges(buttons: seq<bool>, events: seq<MouseEvent>, hasWheel: bool, b: int)
    requires AllAddressable(events, |buttons|)
    ensures InRange(ButtonSwitches(events), |buttons|)
    ensures Edges(HandleMouse(buttons, events, hasWheel).fired, Mouse, b)
         == Edges(Reconcile(Mouse, buttons, ButtonSwitches(events)).fired, Mouse, b)
    decreases |events|
  {
    ButtonSwitchesInRange(events, |buttons|);
    if events != [] {
      var e := events[0];
      var press := ButtonPress(buttons, e);
      var step := MouseStep(buttons, e, hasWheel);
      var rest := HandleMouse(step.states, events[1..], hasWheel);
      var tail := ButtonSwitches(events[1..]);
      assert HandleMouse(buttons, events, hasWheel).fired == step.fired + rest.fired;
      assert ButtonSwitches(events) == (if e.button == -1 then [] else [Switch(e.button, e.down)]) + tail;
      assert AllAddressable(events[1..], |buttons|);
      assert step.states == press.states;
      HandleMouseEdges(press.states, events[1..], hasWheel, b);
      ButtonPressCons(buttons, e, tail);
      MouseStepEdges(buttons, e, hasWheel, b);
      EdgesAppend(step.fired, rest.fired, Mouse, b);
      EdgesAppend(press.fired, Reconcile(Mouse, press.states, tail).fired, Mouse, b);
    }
  }

  /** A mouse event with button -1 leaves the button table alone and fires no
      click or release; any other button follows the key diff rule. */
  lemma MouseButtonDiff(buttons: seq<bool>, e: MouseEvent, hasWheel: bool)
    requires Addressable(e, |buttons|)
    ensures var r := MouseStep(buttons, e, hasWheel);
      e.button == -1 ==> r.states == buttons && forall c :: c in r.fired ==> !OfDevice(c, Mouse)
    ensures var r := MouseStep(buttons, e, hasWheel);
      e.button != -1 ==>
        && r.states[e.button] == e.down
        && (forall i :: 0 <= i < |buttons| && i != e.button ==> r.states[i] == buttons[i])
        && Edges(r.fired, Mouse, e.button) == (if buttons[e.button] != e.down then [e.down] else [])
        && (forall j :: j != e.button ==> Edges(r.fired, Mouse, j) == [])
  {
    var press := ButtonPress(buttons, e);
    var motion := MoveFired(e) + ScrollFired(e, hasWheel);
    var r := MouseStep(buttons, e, hasWheel);
    assert r.fired == press.fired + motion;
    if e.button != -1 {
      FirstEdge(Mouse, buttons, Switch(e.button, e.down), e.button);
      EdgesAppend(press.fired, motion, Mouse, e.button);
      NoEdges(motion, Mouse, e.button);
      forall j | j != e.button
        ensures Edges(r.fired, Mouse, j) == []
      {
        MouseStepEdges(buttons, e, hasWheel, j);
        PressEdgesElsewhere(buttons, e, j);
      }
    }
  }

  /** The button part of a mouse event reports nothing for any other button. */
  lemma PressEdgesElsewhere(buttons: seq<bool>, e: MouseEvent, j: int)
    requires Addressable(e, |buttons|)
    requires j != e.button
    ensures Edges(ButtonPress(buttons, e).fired, Mouse, j) == []
  {
  }

  /** One mouse event fires a move callback only when a delta is positive: a
      an event with neither delta positive (left, down, or both) fires none. */
  lemma MouseStepMoves(buttons: seq<bool>, e: MouseEvent, hasWheel: bool)
    requires Addressable(e, |buttons|)
    ensures Filter(MouseStep(buttons, e, hasWheel).fired, IsMove)
         == (if e.dx > 0 || e.dy > 0 then [Move(e.dx, e.dy, e.x, e.y)] else [])
  {
    var press := ButtonPress(buttons, e);
    var moves := MoveFired(e);
    var scrolls := ScrollFired(e, hasWheel);
    assert MouseStep(buttons, e, hasWheel).fired == (press.fired + moves) + scrolls;
    FilterAppend(press.fired + moves, scrolls, IsMove);
    FilterAppend(press.fired, moves, IsMove);
    FilterNone(press.fired, IsMove);
    FilterNone(scrolls, IsMove);
    FilterAll(moves, IsMove);
  }

  /** One mouse event fires a scroll callback only on a wheel device and when
      the wheel delta is positive: scrolling down fires none. */
  lemma MouseStepScrolls(buttons: seq<bool>, e: MouseEvent, hasWheel: bool)
    requires Addressable(e, |buttons|)
    ensures Filter(MouseStep(buttons, e, hasWheel).fired, IsScroll)
         == (if hasWheel && e.wheel > 0 then [Scroll(e.wheel)] else [])
  {
    var press := ButtonPress(buttons, e);
    var moves := MoveFired(e);
    var scrolls := ScrollFired(e, hasWheel);
    assert MouseStep(buttons, e, hasWheel).fired == (press.fired + moves) + scrolls;
    FilterAppend(press.fired + moves, scrolls, IsScroll);
    FilterAppend(press.fired, moves, IsScroll);
    FilterNone(press.fired, IsScroll);
    FilterNone(moves, IsScroll);
    FilterAll(scrolls, IsScroll);
  }

  /** The move callbacks of a mouse batch are exactly those of the events that
      pass the move test, in event order. */
  lemma {:induction false} HandleMouseMoves(buttons: seq<bool>, events: seq<MouseEvent>, hasWheel: bool)
    requires AllAddressable(events, |buttons|)
    ensures Filter(HandleMouse(buttons, events, hasWheel).fired, IsMove) == MovesOf(events)
    decreases |events|
  {
    if events != [] {
      var step := MouseStep(buttons, events[0], hasWheel);
      var rest := HandleMouse(step.states, events[1..], hasWheel);
      assert HandleMouse(buttons, events, hasWheel).fired == step.fired + rest.fired;
      assert AllAddressable(events[1..], |buttons|);
      HandleMouseMoves(step.states, events[1..], hasWheel);
      MouseStepMoves(buttons, events[0], hasWheel);
      FilterAppend(step.fired, rest.fired, IsMove);
    }
  }

  /** The scroll callbacks of a mouse batch are exactly those of the events that
      pass the scroll test, in event order. */
  lemma {:induction false} HandleMouseScrolls(buttons: seq<bool>, events: seq<MouseEvent>, hasWheel: bool)
    requires AllAddressable(events, |buttons|)
    ensures Filter(HandleMouse(buttons, events, hasWheel).fired, IsScroll) == ScrollsOf(events, hasWheel)
    decreases |events|
  {
    if events != [] {
      var step := MouseStep(buttons, events[0], hasWheel);
      var rest := HandleMouse(step.states, events[1..], hasWheel);
      assert HandleMouse(buttons, events, hasWheel).fired == step.fired + rest.fired;
      assert AllAddressable(events[1..], |buttons|);
      HandleMouseScrolls(step.states, events[1..], hasWheel);
      MouseStepScrolls(buttons, events[0], hasWheel);
      FilterAppend(step.fired, rest.fired, IsScroll);
    }
  }

  /** The input phase writes only the entries some event names; every other
      key and button keeps its state, and neither table changes length. */
  lemma InputWritesOnlyNamed(s: InputState, keyEvents: seq<Switch>, mouseEvents: seq<MouseEvent>, hasWheel: bool)
    requires InRange(keyEvents, |s.keys|)
    requires AllAddressable(mouseEvents, |s.buttons|)
    ensures var r := HandleInput(s, keyEvents, mouseEvents, hasWheel);
      && |r.state.keys| == |s.keys| && |r.state.buttons| == |s.buttons|
      && (forall k :: 0 <= k < |s.keys| && Unnamed(keyEvents, k) ==> r.state.keys[k] == s.keys[k])
      && (forall b :: 0 <= b < |s.buttons| && Untouched(mouseEvents, b) ==> r.state.buttons[b] == s.buttons[b])
  {
    forall k | 0 <= k < |s.keys| && Unnamed(keyEvents, k)
      ensures LastState(keyEvents, k, s.keys[k]) == s.keys[k]
    {
      UnnamedKeepsPrior(keyEvents, k, s.keys[k]);
    }
    forall b | 0 <= b < |s.buttons| && Untouched(mouseEvents, b)
      ensures LastState(ButtonSwitches(mouseEvents), b, s.buttons[b]) == s.buttons[b]
    {
      UnnamedButton(mouseEvents, b);
      UnnamedKeepsPrior(ButtonSwitches(mouseEvents), b, s.buttons[b]);
    }
  }

  /** Over a whole input phase, the callbacks for any one key (or button)
      strictly alternate down and up starting from its stored state, and the
      stored state afterwards is that of its last callback. */
  lemma InputCallbacksAlternate(s: InputState, keyEvents: seq<Switch>, mouseEvents: seq<MouseEvent>, hasWheel: bool)
    requires InRange(keyEvents, |s.keys|)
    requires AllAddressable(mouseEvents, |s.buttons|)
    ensures var r := HandleInput(s, keyEvents, mouseEvents, hasWheel);
      forall k :: 0 <= k < |s.keys| ==>
        Alternates(Edges(r.fired, Keyboard, k), s.keys[k]) && r.state.keys[k] == Settle(Edges(r.fired, Keyboard, k), s.keys[k])
    ensures var r := HandleInput(s, keyEvents, mouseEvents, hasWheel);
      forall b :: 0 <= b < |s.buttons| ==>
        Alternates(Edges(r.fired, Mouse, b), s.buttons[b]) && r.state.buttons[b] == Settle(Edges(r.fired, Mouse, b), s.buttons[b])
  {
    var kr := Reconcile(Keyboard, s.keys, keyEvents);
    var m := HandleMouse(s.buttons, mouseEvents, hasWheel);
    HandleMouseStates(s.buttons, mouseEvents, hasWheel);
    var mr := Reconcile(Mouse, s.buttons, ButtonSwitches(mouseEvents));
    forall k | 0 <= k < |s.keys|
      ensures Alternates(Edges(kr.fired + m.fired, Keyboard, k), s.keys[k])
      ensures kr.states[k] == Settle(Edges(kr.fired + m.fired, Keyboard, k), s.keys[k])
    {
      ReconcileAlternates(Keyboard, s.keys, keyEvents, k);
      EdgesAppend(kr.fired, m.fired, Keyboard, k);
      NoEdges(m.fired, Keyboard, k);
      assert Edges(kr.fired, Keyboard, k) + [] == Edges(kr.fired, Keyboard, k);
    }
    forall b | 0 <= b < |s.buttons|
      ensures Alternates(Edges(kr.fired + m.fired, Mouse, b), s.buttons[b])
      ensures m.states[b] == Settle(Edges(kr.fired + m.fired, Mouse, b), s.buttons[b])
    {
      ReconcileAlternates(Mouse, s.buttons, ButtonSwitches(mouseEvents), b);
      HandleMouseEdges(s.buttons, mouseEvents, hasWheel, b);
      EdgesAppend(kr.fired, m.fired, Mouse, b);
      NoEdges(kr.fired, Mouse, b);
      assert [] + Edges(m.fired, Mouse, b) == Edges(m.fired, Mouse, b);
    }
  }

  /** Over a whole input phase, each key and each button fires exactly one
      callback per reported state that changes it, and none for a state that
      agrees with it: two agreeing events fire nothing. */
  lemma InputCallbacksOnChange(s: InputState, keyEvents: seq<Switch>, mouseEvents: seq<MouseEvent>, hasWheel: bool)
    requires InRange(keyEvents, |s.keys|)
    requires AllAddressable(mouseEvents, |s.buttons|)
    ensures var r := HandleInput(s, keyEvents, mouseEvents, hasWheel);
      forall k :: 0 <= k < |s.keys| ==>
        Edges(r.fired, Keyboard, k) == Changes(StatesOf(keyEvents, k), s.keys[k])
    ensures var r := HandleInput(s, keyEvents, mouseEvents, hasWheel);
      forall b :: 0 <= b < |s.buttons| ==>
        Edges(r.fired, Mouse, b) == Changes(StatesOf(ButtonSwitches(mouseEvents), b), s.buttons[b])
  {
    InputKeysOnChange(s, keyEvents, mouseEvents, hasWheel);
    InputButtonsOnChange(s, keyEvents, mouseEvents, hasWheel);
  }

  /** The key half of `InputCallbacksOnChange`. */
  lemma InputKeysOnChange(s: InputState, keyEvents: seq<Switch>, mouseEvents: seq<MouseEvent>, hasWheel: bool)
    requires InRange(keyEvents, |s.keys|)
    requires AllAddressable(mouseEvents, |s.buttons|)
    ensures var r := HandleInput(s, keyEvents, mouseEvents, hasWheel);
      forall k :: 0 <= k < |s.keys| ==>
        Edges(r.fired, Keyboard, k) == Changes(StatesOf(keyEvents, k), s.keys[k])
  {
    var kr := Reconcile(Keyboard, s.keys, keyEvents);
    var m := HandleMouse(s.buttons, mouseEvents, hasWheel);
    forall k | 0 <= k < |s.keys|
      ensures Edges(kr.fired + m.fired, Keyboard, k) == Changes(StatesOf(keyEvents, k), s.keys[k])
    {
      ReconcileEdges(Keyboard, s.keys, keyEvents, k);
      EdgesAppend(kr.fired, m.fired, Keyboard, k);
      NoEdges(m.fired, Keyboard, k);
      assert Edges(kr.fired, Keyboard, k) + [] == Edges(kr.fired, Keyboard, k);
    }
  }

  /** The button half of `InputCallbacksOnChange`. */
  lemma InputButtonsOnChange(s: InputState, keyEvents: seq<Switch>, mouseEvents: seq<MouseEvent>, hasWheel: bool)
    requires InRange(keyEvents, |s.keys|)
    requires AllAddressable(mouseEvents, |s.buttons|)
    ensures var r := HandleInput(s, keyEvents, mouseEvents, hasWheel);
      forall b :: 0 <= b < |s.buttons| ==>
        Edges(r.fired, Mouse, b) == Changes(StatesOf(ButtonSwitches(mouseEvents), b), s.buttons[b])
  {
    var kr := Reconcile(Keyboard, s.keys, keyEvents);
    var m := HandleMouse(s.buttons, mouseEvents, hasWheel);
    ButtonSwitchesInRange(mouseEvents, |s.buttons|);
    forall b | 0 <= b < |s.buttons|
      ensures Edges(kr.fired + m.fired, Mouse, b) == Changes(StatesOf(ButtonSwitches(mouseEvents), b), s.buttons[b])
    {
      ReconcileEdges(Mouse, s.buttons, ButtonSwitches(mouseEvents), b);
      HandleMouseEdges(s.buttons, mouseEvents, hasWheel, b);
      EdgesAppend(kr.fired, m.fired, Mouse, b);
      NoEdges(kr.fired, Mouse, b);
      assert [] + Edges(m.fired, Mouse, b) == Edges(m.fired, Mouse, b);
    }
  }

  /** A trace whose presses and releases of `dev` all name entries below `n`
      reports no edges for any other index. */
  lemma {:induction false} EdgesOutside(trace: seq<Callback>, dev: Device, n: nat, i: int)
    requires forall c :: c in trace ==> WithinTable(c, dev, n)
    requires !(0 <= i < n)
    ensures Edges(trace, dev, i) == []
    decreases |trace|
  {
    if trace != [] {
      assert trace[0] in trace;
      EdgesOutside(trace[1..], dev, n, i);
    }
  }

  /** One mouse event fires its click or release first, then its move, then its scroll. */
  lemma MouseStepOrder(buttons: seq<bool>, e: MouseEvent, hasWheel: bool)
    requires Addressable(e, |buttons|)
    ensures var fired := MouseStep(buttons, e, hasWheel).fired;
      fired == Filter(fired, IsButton) + Filter(fired, IsMove) + Filter(fired, IsScroll)
  {
    assert MouseStep(buttons, e, hasWheel).fired == (ButtonPress(buttons, e).fired + MoveFired(e)) + ScrollFired(e, hasWheel);
    MouseStepButtons(buttons, e, hasWheel);
    MouseStepMoves(buttons, e, hasWheel);
    MouseStepScrolls(buttons, e, hasWheel);
  }

  /** The clicks and releases of one mouse event are those of its button part. */
  lemma MouseStepButtons(buttons: seq<bool>, e: MouseEvent, hasWheel: bool)
    requires Addressable(e, |buttons|)
    ensures Filter(MouseStep(buttons, e, hasWheel).fired, IsButton) == ButtonPress(buttons, e).fired
  {
    var press := ButtonPress(buttons, e);
    var moves := MoveFired(e);
    var scrolls := ScrollFired(e, hasWheel);
    assert MouseStep(buttons, e, hasWheel).fired == (press.fired + moves) + scrolls;
    FilterAppend(press.fired + moves, scrolls, IsButton);
    FilterAppend(press.fired, moves, IsButton);
    FilterAll(press.fired, IsButton);
    FilterNone(moves, IsButton);
    FilterNone(scrolls, IsButton);
  }

  /** The report-order reference of a batch is the first event's callback,
      then the reference of the rest from the table the first event left. */
  lemma {:induction false} ReportOrderShift(dev: Device, states: seq<bool>, switches: seq<Switch>, k: nat)
    requires InRange(switches, |states|) && 0 < |switches| && k < |switches|
    ensures InRange(switches[1..], |ReconcileOne(dev, states, switches[0]).states|)
    ensures ReportOrder(dev, states, switches, k + 1)
         == FiredBy(dev, states, switches, 0) + ReportOrder(dev, ReconcileOne(dev, states, switches[0]).states, switches[1..], k)
    decreases k
  {
    var first := ReconcileOne(dev, states, switches[0]);
    assert InRange(switches[1..], |first.states|);
    if k > 0 {
      ReportOrderShift(dev, states, switches, k - 1);
      ReportOrderStep(dev, states, switches, k);
    } else {
      assert ReportOrder(dev, states, switches, 1) == [] + FiredBy(dev, states, switches, 0);
    }
  }

  /** One step of `ReportOrderShift`: from `k` events to `k + 1`. */
  lemma ReportOrderStep(dev: Device, states: seq<bool>, switches: seq<Switch>, k: nat)
    requires InRange(switches, |states|) && 0 < k < |switches|
    requires InRange(switches[1..], |ReconcileOne(dev, states, switches[0]).states|)
    requires ReportOrder(dev, states, switches, k)
          == FiredBy(dev, states, switches, 0) + ReportOrder(dev, ReconcileOne(dev, states, switches[0]).states, switches[1..], k - 1)
    ensures ReportOrder(dev, states, switches, k + 1)
         == FiredBy(dev, states, switches, 0) + ReportOrder(dev, ReconcileOne(dev, states, switches[0]).states, switches[1..], k)
  {
    var after := ReconcileOne(dev, states, switches[0]).states;
    FiredByShift(dev, states, switches, k);
    ShiftAlgebra(ReportOrder(dev, states, switches, k + 1), ReportOrder(dev, states, switches, k),
      FiredBy(dev, states, switches, 0), ReportOrder(dev, after, switches[1..], k - 1),
      ReportOrder(dev, after, switches[1..], k), FiredBy(dev, states, switches, k));
  }

  /** A later event fires against the first event's table what it fires against the original. */
  lemma FiredByShift(dev: Device, states: seq<bool>, switches: seq<Switch>, k: nat)
    requires InRange(switches, |states|) && 0 < k < |switches|
    ensures InRange(switches[1..], |ReconcileOne(dev, states, switches[0]).states|)
    ensures FiredBy(dev, states, switches, k) == FiredBy(dev, ReconcileOne(dev, states, switches[0]).states, switches[1..], k - 1)
  {
    var first := ReconcileOne(dev, states, switches[0]);
    var tail := switches[1..];
    assert InRange(tail, |first.states|);
    assert tail[k - 1] == switches[k];
    assert switches[..k][1..] == tail[..k - 1];
    LastStateAfterFirst(switches[..k], states, first.states);
  }

  /** A batch fires its callbacks in the order its events were reported, not in
      index order: exactly `ReportOrder` of the whole batch. */
  lemma {:induction false} ReconcileReportOrder(dev: Device, states: seq<bool>, switches: seq<Switch>)
    requires InRange(switches, |states|)
    ensures Reconcile(dev, states, switches).fired == ReportOrder(dev, states, switches, |switches|)
    decreases |switches|
  {
    if switches != [] {
      var first := ReconcileOne(dev, states, switches[0]);
      var rest := Reconcile(dev, first.states, switches[1..]);
      assert Reconcile(dev, states, switches).fired == first.fired + rest.fired;
      ReconcileReportOrder(dev, first.states, switches[1..]);
      ReportOrderShift(dev, states, switches, |switches| - 1);
      assert switches[..0] == [];
    }
  }

  /** The same shift for a mouse batch. */
  lemma {:induction false} MouseReportOrderShift(buttons: seq<bool>, events: seq<MouseEvent>, k: nat, hasWheel: bool)
    requires 0 < |events| && k < |events|
    ensures MouseReportOrder(buttons, events, k + 1, hasWheel)
         == MouseFiredBy(buttons, events, 0, hasWheel) + MouseReportOrder(Pressed(buttons, events[0]), events[1..], k, hasWheel)
    decreases k
  {
    if k > 0 {
      MouseReportOrderShift(buttons, events, k - 1, hasWheel);
      MouseShiftStep(buttons, events, k, hasWheel);
    } else {
      MouseReportOrderFirst(buttons, events, hasWheel);
    }
  }

  /** The first event alone fires what it fires against the original table. */
  lemma MouseReportOrderFirst(buttons: seq<bool>, events: seq<MouseEvent>, hasWheel: bool)
    requires 0 < |events|
    ensures MouseReportOrder(buttons, events, 1, hasWheel)
         == MouseFiredBy(buttons, events, 0, hasWheel) + MouseReportOrder(Pressed(buttons, events[0]), events[1..], 0, hasWheel)
  {
    assert MouseReportOrder(buttons, events, 1, hasWheel) == [] + MouseFiredBy(buttons, events, 0, hasWheel);
  }

  /** One step of `MouseReportOrderShift`: from `k` events to `k + 1`. */
  lemma MouseShiftStep(buttons: seq<bool>, events: seq<MouseEvent>, k: nat, hasWheel: bool)
    requires 0 < k < |events|
    requires MouseReportOrder(buttons, events, k, hasWheel)
          == MouseFiredBy(buttons, events, 0, hasWheel) + MouseReportOrder(Pressed(buttons, events[0]), events[1..], k - 1, hasWheel)
    ensures MouseReportOrder(buttons, events, k + 1, hasWheel)
         == MouseFiredBy(buttons, events, 0, hasWheel) + MouseReportOrder(Pressed(buttons, events[0]), events[1..], k, hasWheel)
  {
    var after := Pressed(buttons, events[0]);
    var tail := events[1..];
    MouseFiredByShift(buttons, events, k, hasWheel);
    ShiftAlgebra(MouseReportOrder(buttons, events, k + 1, hasWheel), MouseReportOrder(buttons, events, k, hasWheel),
      MouseFiredBy(buttons, events, 0, hasWheel), MouseReportOrder(after, tail, k - 1, hasWheel),
      MouseReportOrder(after, tail, k, hasWheel), MouseFiredBy(buttons, events, k, hasWheel));
  }

  /** Appending the same last part to both sides of `prev == head + mid` keeps them equal. */
  lemma ShiftAlgebra(total: seq<Callback>, prev: seq<Callback>, head: seq<Callback>, mid: seq<Callback>,
                     midNext: seq<Callback>, last: seq<Callback>)
    requires prev == head + mid && total == prev + last && midNext == mid + last
    ensures total == head + midNext
  {
    assert (head + mid) + last == head + (mid + last);
  }

  /** The table the first `k` events leave is the one the next `k - 1` leave from the first event's table. */
  lemma {:induction false} ButtonsBeforeShift(buttons: seq<bool>, events: seq<MouseEvent>, k: nat)
    requires 0 < k <= |events|
    ensures ButtonsBefore(buttons, events, k) == ButtonsBefore(Pressed(buttons, events[0]), events[1..], k - 1)
    decreases k
  {
    if k > 1 {
      ButtonsBeforeShift(buttons, events, k - 1);
      assert events[1..][k - 2] == events[k - 1];
    }
  }

  /** A later mouse event fires against the first event's table what it fires against the original. */
  lemma MouseFiredByShift(buttons: seq<bool>, events: seq<MouseEvent>, k: nat, hasWheel: bool)
    requires 0 < k < |events|
    ensures MouseFiredBy(buttons, events, k, hasWheel) == MouseFiredBy(Pressed(buttons, events[0]), events[1..], k - 1, hasWheel)
  {
    ButtonsBeforeShift(buttons, events, k);
    assert events[1..][k - 1] == events[k];
  }

  /** A mouse batch fires its callbacks event by event, in the order the events
      were reported: exactly `MouseReportOrder` of the whole batch. */
  lemma {:induction false} HandleMouseReportOrder(buttons: seq<bool>, events: seq<MouseEvent>, hasWheel: bool)
    requires AllAddressable(events, |buttons|)
    ensures HandleMouse(buttons, events, hasWheel).fired == MouseReportOrder(buttons, events, |events|, hasWheel)
    decreases |events|
  {
    if events != [] {
      var step := MouseStep(buttons, events[0], hasWheel);
      var rest := HandleMouse(step.states, events[1..], hasWheel);
      assert HandleMouse(buttons, events, hasWheel).fired == step.fired + rest.fired;
      MouseStepFirst(buttons, events, hasWheel);
      HandleMouseReportOrder(step.states, events[1..], hasWheel);
      MouseReportOrderShift(buttons, events, |events| - 1, hasWheel);
    }
  }

  /** The first event's step leaves the table `Pressed` names and fires what
      `MouseFiredBy` names for it. */
  lemma MouseStepFirst(buttons: seq<bool>, events: seq<MouseEvent>, hasWheel: bool)
    requires AllAddressable(events, |buttons|) && events != []
    ensures MouseStep(buttons, events[0], hasWheel).states == Pressed(buttons, events[0])
    ensures MouseStep(buttons, events[0], hasWheel).fired == MouseFiredBy(buttons, events, 0, hasWheel)
    ensures AllAddressable(events[1..], |buttons|)
  {
    assert Addressable(events[0], |buttons|);
  }

  /** The input phase fires every key callback before any mouse callback: the
      keys' callbacks are those of the key diff, the rest those of the mouse pass. */
  lemma InputCallbackOrder(s: InputState, keyEvents: seq<Switch>, mouseEvents: seq<MouseEvent>, hasWheel: bool)
    requires InRange(keyEvents, |s.keys|)
    requires AllAddressable(mouseEvents, |s.buttons|)
    ensures var fired := HandleInput(s, keyEvents, mouseEvents, hasWheel).fired;
      && fired == Filter(fired, IsKey) + Filter(fired, IsMouse)
      && Filter(fired, IsKey) == Reconcile(Keyboard, s.keys, keyEvents).fired
      && Filter(fired, IsMouse) == HandleMouse(s.buttons, mouseEvents, hasWheel).fired
  {
    var kr := Reconcile(Keyboard, s.keys, keyEvents);
    var m := HandleMouse(s.buttons, mouseEvents, hasWheel);
    assert HandleInput(s, keyEvents, mouseEvents, hasWheel).fired == kr.fired + m.fired;
    FilterAppend(kr.fired, m.fired, IsKey);
    FilterAppend(kr.fired, m.fired, IsMouse);
    FilterAll(kr.fired, IsKey);
    FilterNone(m.fired, IsKey);
    FilterNone(kr.fired, IsMouse);
    FilterAll(m.fired, IsMouse);
    assert kr.fired + [] == kr.fired;
    assert [] + m.fired == m.fired;
  }

  /** No press or release of the input phase names a key or button outside its table. */
  lemma InputEdgesWithinTables(s: InputState, keyEvents: seq<Switch>, mouseEvents: seq<MouseEvent>, hasWheel: bool)
    requires InRange(keyEvents, |s.keys|)
    requires AllAddressable(mouseEvents, |s.buttons|)
    ensures var fired := HandleInput(s, keyEvents, mouseEvents, hasWheel).fired;
      forall i :: !(0 <= i < |s.keys|) ==> Edges(fired, Keyboard, i) == []
    ensures var fired := HandleInput(s, keyEvents, mouseEvents, hasWheel).fired;
      forall i :: !(0 <= i < |s.buttons|) ==> Edges(fired, Mouse, i) == []
  {
    var kr := Reconcile(Keyboard, s.keys, keyEvents);
    var m := HandleMouse(s.buttons, mouseEvents, hasWheel);
    var fired := kr.fired + m.fired;
    assert HandleInput(s, keyEvents, mouseEvents, hasWheel).fired == fired;
    forall c | c in fired
      ensures WithinTable(c, Keyboard, |s.keys|) && WithinTable(c, Mouse, |s.buttons|)
    {
      if c in kr.fired {
        assert OfDevice(c, Keyboard);
      } else {
        assert c in m.fired;
      }
    }
    forall i | !(0 <= i < |s.keys|)
      ensures Edges(fired, Keyboard, i) == []
    {
      EdgesOutside(fired, Keyboard, |s.keys|, i);
    }
    forall i | !(0 <= i < |s.buttons|)
      ensures Edges(fired, Mouse, i) == []
    {
      EdgesOutside(fired, Mouse, |s.buttons|, i);
    }
  }

  /** Over a whole input phase, the move and scroll callbacks are exactly those
      of the mouse events that pass the move and scroll tests. */
  lemma InputMotionCallbacks(s: InputState, keyEvents: seq<Switch>, mouseEvents: seq<MouseEvent>, hasWheel: bool)
    requires InRange(keyEvents, |s.keys|)
    requires AllAddressable(mouseEvents, |s.buttons|)
    ensures Filter(HandleInput(s, keyEvents, mouseEvents, hasWheel).fired, IsMove) == MovesOf(mouseEvents)
    ensures Filter(HandleInput(s, keyEvents, mouseEvents, hasWheel).fired, IsScroll) == ScrollsOf(mouseEvents, hasWheel)
  {
    var kr := Reconcile(Keyboard, s.keys, keyEvents);
    var m := HandleMouse(s.buttons, mouseEvents, hasWheel);
    HandleMouseMoves(s.buttons, mouseEvents, hasWheel);
    HandleMouseScrolls(s.buttons, mouseEvents, hasWheel);
    FilterAppend(kr.fired, m.fired, IsMove);
    FilterAppend(kr.fired, m.fired, IsScroll);
    FilterNone(kr.fired, IsMove);
    FilterNone(kr.fired, IsScroll);
  }

  /** After an input phase the state queries answer with the last reported
      state of the key or button, or with the stored state if no event named it. */
  lemma StateQueriesAfterInput(s: InputState, keyEvents: seq<Switch>, mouseEvents: seq<MouseEvent>, hasWheel: bool, key: int, button: int)
    requires InRange(keyEvents, |s.keys|)
    requires AllAddressable(mouseEvents, |s.buttons|)
    requires 0 <= key < |s.keys| && 0 <= button < |s.buttons|
    ensures KeyState(HandleInput(s, keyEvents, mouseEvents, hasWheel).state, key)
         == LastState(keyEvents, key, KeyState(s, key))
    ensures ButtonState(HandleInput(s, keyEvents, mouseEvents, hasWheel).state, button)
         == LastState(ButtonSwitches(mouseEvents), button, ButtonState(s, button))
  {
  }
}

=== FILE: Settings.dfy ===
/** The integer part of the game's static configuration: the frame budget. */
module Settings {

  /** Frames to draw per second. */
  const DrawRate: int := 60

  /** The time one frame may take, in whole milliseconds: integer division, so 16. */
  const DrawDuration: int := 1000 / DrawRate
}
